=== FILE: README.md ===
# Service runtime core: LRU cache, WebSocket dispatch, server start-up

A Dafny model of the three pieces of `basic/ts` that carry state and rules:

- **`LRUCache<T>`** (`basic/ts/util/lru.ts`), the bounded least-recently-used
  cache that memoizes MongoDB collection handles. The doubly linked recency
  chain becomes a sequence of entries, oldest (head) first and newest (tail)
  last. Beside it sit the key map (key to value), the `size` counter and the
  `limit`. Every operation computes its result from the cache value alone,
  with no mutation (module `Lru`). `Get`, `Remove` and `Shift` return the
  new cache beside what they hand back, and `ForEach` is a method that
  returns the entries it visits. `Lru.Valid` is the invariant: a positive limit,
  `size == |chain| <= limit`, one node per key, and a map that holds exactly
  the linked keys with their values. Laws that relate several calls are in
  module `LruLaws`.
- **The per-connection message router of `WSServer`**
  (`basic/ts/lib/server/ws.server.ts`). A raw payload is abstracted to the
  result of parsing it (`Malformed` or a `Datum`). Handlers, `hello` and
  `error` are uninterpreted functions. What the connection handler logs and
  sends is a trace of events (module `WsServer`). The same module holds
  `listen`, `clear` and the WebSocket instance of `init`.
- **`PortHoldingServer.init`** (`basic/ts/types/server.ts`): `prepare`, then
  `listen`, joined with a short-circuit `&&`. The two steps are given as the
  values they resolve to (module `PortHolding`).

Two source behaviours shape the cache model:

- **Re-putting a cached key.** `put` never checks whether the key is already
  cached; the source comment calls this deliberate. The new node is appended,
  and the old node stays linked. When that old node is later shifted out,
  `shift` deletes its key from the map, and that drops the live mapping.
  - `Lru.PutUnguarded` models `put` exactly as written.
  - `LruLaws.RePutOfOldestLosesKey` and `LruLaws.OrphanEvictionDropsLiveMapping`
    show the consequence.
  - `Lru.Put` is `PutUnguarded` restricted to keys that are not cached. That
    is how the only caller, `getCollection` in
    `basic/ts/lib/service/mongodb.service.ts`, uses it: it puts only after a
    `get` miss. Every law about the valid cache is proved for `Put`.
- **Calling `shift` directly.** `shift` does not lower `size`. `put` relies on
  this: at the limit it appends a node and does not increment. A direct call
  therefore leaves `size` one above the number of linked nodes.
  `Lru.Shift` states this.

Routing facts about the connection handler that the model keeps:

- A message without a string `type` field matches no protocol, so it takes
  the unknown-type branch like any other unregistered type.
- A handler that throws gets no reply. The exception is caught, logged as
  an error, and nothing is sent.
- Protocol types need not be unique. Lookup is a first-match scan in array
  order, so a later protocol with the same type is never reached.
- The unknown-type branch calls `logger.warning` and then `error(ws, req)`,
  both inside the `try`. If either throws, the message is logged as an error
  and nothing is sent. The repository's logger factory
  (`basic/ts/util/logger.ts`) builds a winston logger with the default npm
  levels, and those have no `warning` level. With that logger, an unknown
  type is never answered (`WsServer.UnknownTypeUnansweredWithoutWarningLevel`).

## Model

| member | source | states |
|---|---|---|
| Lru.New | basic/ts/util/lru.ts:34-37 | a new cache has size 0 and no nodes, finds no key, keeps the given limit, and satisfies the invariant whenever the limit is at least 1 |
| Lru.Shift | basic/ts/util/lru.ts:63-81 | with no head it throws; with a single node it reports the stale-tail outcome with that node as the purged entry; otherwise it removes exactly the oldest node from the chain and exactly its key from the map (also when other nodes carry that key), keeps every other node in order and the limit, and leaves the size counter unchanged, which on a valid cache is one above the linked count |
| Lru.PutUnguarded | basic/ts/util/lru.ts:39-61 | `put` as written, duplicates allowed: the new node is always the tail and the map sends the key to the new value; below the limit the node is appended and size grows by 1; at the limit the old head leaves the chain and its key leaves the map, with size unchanged; so the key stays mapped iff it was not the key of the head evicted at the limit |
| Lru.Put | basic/ts/util/lru.ts:39-61 | for an uncached key the invariant is preserved and the new entry becomes the tail; below the limit the size grows by 1; at the limit exactly the head entry leaves both chain and map, and the size stays the same |
| Lru.Get | basic/ts/util/lru.ts:83-115 | a miss returns None and leaves the cache unchanged; a hit returns the mapped value and makes the key the tail, the other entries keep their relative order (the reference unlinking `Drop`), and map and size are unchanged |
| Lru.Find | basic/ts/util/lru.ts:117-119 | returns the node exactly when the key is mapped, with the mapped value, and that node is linked in the chain; recency is not touched |
| Lru.Remove | basic/ts/util/lru.ts:121-147 | a miss returns None with no change; a hit returns the value, deletes the key, unlinks exactly its node, lowers the size by exactly 1, and keeps the invariant |
| Lru.Unlink | basic/ts/util/lru.ts:127-143 | each of the four relinking cases (both neighbours, head, tail, only node) yields the chain with exactly that node cut out |
| Lru.RemoveAll | basic/ts/util/lru.ts:150-155 | from any state: size 0, no linked nodes, no key found, limit kept, and the invariant holds whenever the limit is at least 1 |
| Lru.ForEach | basic/ts/util/lru.ts:161-178 | visits every linked entry once, in head-to-tail order by default; when `desc` is true or the context argument is literally `true` it visits the reverse, so position i of the walk is chain position \|chain\|-1-i |
| Lru.DropAt | basic/ts/util/lru.ts:127-143 | with one node per key, cutting out the node at a position is the same as the reference unlinking of its key |
| LruLaws.GetNewestKeepsOrder | basic/ts/util/lru.ts:90-93 | reading the tail entry returns its value and leaves the cache unchanged |
| LruLaws.PutThenGet | basic/ts/util/lru.ts:39-52 | after putting an uncached key, it is the tail and `get` returns the value just put without relinking |
| LruLaws.GetTwice | basic/ts/util/lru.ts:83-115 | a second `get` of the same key returns the same result and changes nothing more |
| LruLaws.PutThenRemove | basic/ts/util/lru.ts:121-147 | below the limit, removing a key just put returns its value and restores the earlier cache exactly |
| LruLaws.RemoveThenGet | basic/ts/util/lru.ts:121-147 | after `remove(k)`, `get(k)` misses, and a hit lowered the size by 1 |
| LruLaws.EvictsOldest | basic/ts/util/lru.ts:53-56 | limit 2: put a, b, c leaves exactly b then c; `get a` misses, `get b` is 2, `get c` is 3 |
| LruLaws.ThirdPutEvictsFirst | basic/ts/util/lru.ts:53-56 | putting a fresh key into the full cache a, b unlinks and unmaps exactly the head a, leaving b then c |
| LruLaws.GetMovesToNewest | basic/ts/util/lru.ts:98-114 | with chain a, b, `get a` returns 1 and reorders the chain to b, a |
| LruLaws.PutEvictsRefreshedOrder | basic/ts/util/lru.ts:53-56 | putting a fresh key into the full cache b, a evicts b, the head, and keeps a then c |
| LruLaws.GetRefreshesRecency | basic/ts/util/lru.ts:98-114 | limit 2: put a, put b, get a, put c evicts b and keeps a and c |
| LruLaws.RePutOfOldestLosesKey | basic/ts/util/lru.ts:39-56 | the unguarded `put` of a key whose old node is the head of a full cache links the new node yet leaves the key unmapped |
| LruLaws.OrphanEvictionDropsLiveMapping | basic/ts/util/lru.ts:63-78 | limit 2: put a 1, put a 2, put b 3 leaves node a:2 linked and counted while the map holds only b |
| PortHolding.Init | basic/ts/types/server.ts:22-30 | prepare is invoked first and exactly once; listen is invoked at most once, after prepare, and only if prepare yields true; false prepare gives false; otherwise the result is listen's value |
| PortHolding.InitTruthy | basic/ts/types/server.ts:25-29 | init is truthy iff prepare yields true and listen's value is truthy |
| WsServer.FindProtocol | basic/ts/lib/server/ws.server.ts:77 | returns the first position in array order whose type equals the message type, or None iff no entry matches |
| WsServer.Dispatch | basic/ts/lib/server/ws.server.ts:73-87 | at most one send per message; a parse failure logs an error and sends nothing; the first matching handler's reply is sent with that protocol's sendError as completion; a throwing handler logs and sends nothing; with no match it logs a warning and sends `error(ws, req)` once, but a throwing warning call gives only an error log and a throwing `error` gives the warning then an error log, with no send in either case |
| WsServer.ShadowedProtocolNeverAnswers | basic/ts/lib/server/ws.server.ts:77-79 | of two protocols with the same type, the later one's reply is never sent |
| WsServer.PingAndBogus | basic/ts/lib/server/ws.server.ts:77-83 | a registered `ping` is answered once with its handler's reply; with a logger that has a `warning` level, an unregistered `bogus` is answered once with the error payload |
| WsServer.UnknownTypeUnansweredWithoutWarningLevel | basic/ts/lib/server/ws.server.ts:80-86 | when the logger's `warning` call throws, a message that matches no protocol is logged as an error and gets no reply at all |
| WsServer.GreetingSendsHello | basic/ts/lib/server/ws.server.ts:71-93 | the connection handler's only send is `hello(ws, req)`, made when `hello` returns; when `hello` throws the handler sends nothing |
| WsServer.ReplaySends | basic/ts/lib/server/ws.server.ts:73-87 | a run of n dispatched messages sends at most n payloads |
| WsServer.ConnectionTrace | basic/ts/lib/server/ws.server.ts:70-93 | log and both listeners come first, then the hello send if `hello` returned, then the dispatched messages; n messages bring the total to at most n sends plus one for a returned hello |
| WsServer.ServeConnection | basic/ts/lib/server/ws.server.ts:70-93 | a connection logs and attaches the message and error listeners; it then sends hello once if `hello` returns and nothing if it throws; messages are dispatched in arrival order in both cases, with at most n sends plus one for a returned hello |
| WsServer.Listen | basic/ts/lib/server/ws.server.ts:42-60 | without opts.server it binds on the own port and exposes the library's server; with opts.server it attaches there and exposes that server; it resolves to the exposed server; a registration failure is logged and not propagated |
| WsServer.Clear | basic/ts/lib/server/ws.server.ts:97-107 | server and wss end null, the wss that was present is the one closed, the result is always true, and port and services are unchanged |
| WsServer.ClearTwice | basic/ts/lib/server/ws.server.ts:97-107 | a second clear closes nothing and changes nothing |
| WsServer.ListenThenClear | basic/ts/lib/server/ws.server.ts:97-107 | clear after listen closes exactly the wss that listen created and leaves only port and services |
| WsServer.WsInit | basic/ts/lib/server/ws.server.ts:36-59 | WSServer's prepare is always true, so init calls prepare then listen; the fields end exactly as listen left them, with a wss bound to opts.server when given and otherwise to the own port; init resolves to the server listen exposed, which is opts.server when given and otherwise the library's server; it is truthy iff that server is non-null; port and services are never touched |

## Left out

- `keys()` (basic/ts/util/lru.ts:157-159) is not modelled. It calls `Object.keys` on a `Map`, which always returns an empty array, so it never lists the cached keys.
- `toString()` is not modelled because it depends on JavaScript's string coercion of the generic value. The `console.log` in `shift` is also left out.
- A limit of 0, or a limit that is not a positive integer, is outside `Lru.Valid`. In the source, with limit 0, the first `put` leaves a stale tail, and the second `put` throws on an undefined head. A sequence model has no separate tail pointer, so it cannot represent that state.
- Lru.Shift: a direct `shift` of a one-node cache clears the head but leaves the tail on the purged node. The model reports this as `StaleTail` and does not follow the cache further. In the source, a descending `forEach` would still visit that node, and a later `put` would link onto it while the head stays undefined. `put` never reaches this state: it shifts only after appending, so at least two nodes are linked.
- Lru.Put: requires the key to be uncached, which the source does not check. `Lru.PutUnguarded` models the unguarded behaviour, and `LruLaws.RePutOfOldestLosesKey` and `LruLaws.OrphanEvictionDropsLiveMapping` show its effect.
- Lru.ForEach: returns the entries the visitor is called with; it does not model the visitor's `this` binding or any mutation the visitor itself might make.
- Transport, `JSON.parse` and the `ws`/`http` libraries are not modelled. The payload is its parse result. `hello`, `error` and the handlers are uninterpreted functions. The handler's `wss` argument and `this` binding are omitted. The completion callback is recorded as "the sendError of protocol i" and is never invoked.
- WsServer.ServeConnection: when `hello` throws, the exception leaves the connection handler, because `ws.send(hello(ws, req))` is outside any `try`. What the `ws` library or the process then does with it is not modelled. The listeners are already attached, so messages are still dispatched.
- Apart from `warning` on the unknown-type branch, every logger call is treated as a sink that never throws.
- Exceptions thrown synchronously by `new ws.Server(...)`, and rejected `prepare`/`listen` promises, are not modelled.
- async/await and event-emitter registration order are not modelled, except for the order of the connection handler's steps.
- The socket-level and server-level `'error'` listeners only log, so they appear as attached listeners only.
- `ExpressServer`, the MongoDB service, argument parsing, logger setup, the package.json loader, type declarations and the Angular module are wiring around external libraries and are not part of this model.

=== FILE: lru.dfy ===
/** The capacity-bounded least-recently-used cache `LRUCache<T>` of
    basic/ts/util/lru.ts.

    The source keeps a doubly linked chain of nodes (head = oldest, tail =
    newest), a `Map` from key to node, a size counter and a limit. Here the
    chain is a sequence of entries, oldest first, and the map sends each key to
    the value of the node it points at; the head/tail pointers and the
    `older`/`newer` links are exactly the order of that sequence. */
module Lru {
  import opened Wrappers

  /** One node of the recency chain. */
  datatype Entry<V> = Entry(key: string, value: V)

  /** `chain` runs from the head (least recently used) to the tail (most
      recently used); `index` is the key map; `size` and `limit` are the
      counters of the same names. */
  datatype Cache<V> = Cache(chain: seq<Entry<V>>, index: map<string, V>, size: int, limit: int)

  /** What `get` and `remove` hand back: the value, or `None` for
      `undefined`, together with the cache afterwards. */
  datatype Lookup<V> = Lookup(value: Option<V>, cache: Cache<V>)

  /** What `shift` hands back: the purged head and the cache afterwards;
      `StaleTail` when the purged head was the only node, because `shift`
      then clears the head but leaves the tail pointing at the purged node,
      a state no chain can describe; or `HeadUndefined` when there is no head
      and `entry.key` throws. */
  datatype Shifted<V> =
    | Shifted(cache: Cache<V>, evicted: Entry<V>)
    | StaleTail(evicted: Entry<V>)
    | HeadUndefined

  /** The keys of the nodes in a chain. */
  ghost function KeySet<V>(s: seq<Entry<V>>): set<string>
  {
    set i | 0 <= i < |s| :: s[i].key
  }

  /** No key is linked twice. */
  ghost predicate DistinctKeys<V>(s: seq<Entry<V>>)
  {
    forall i, j :: 0 <= i < j < |s| ==> s[i].key != s[j].key
  }

  /** Every node's value is what the map holds for its key. */
  ghost predicate Agrees<V>(index: map<string, V>, s: seq<Entry<V>>)
  {
    forall i :: 0 <= i < |s| ==> s[i].key in index && index[s[i].key] == s[i].value
  }

  /** The counters of a cache the source can run with: a positive limit
      (with limit 0 a second `put` dereferences an undefined head) and a size
      equal to the number of linked nodes, never above the limit. Duplicate
      keys are allowed here, because `put` does not guard against them. */
  ghost predicate Shaped<V>(c: Cache<V>)
  {
    1 <= c.limit && c.size == |c.chain| <= c.limit
  }

  /** The invariant of a cache used as its only caller uses it: shaped, one
      node per key, and the map holding exactly the linked keys with their
      values. */
  ghost predicate Valid<V>(c: Cache<V>)
  {
    && Shaped(c)
    && DistinctKeys(c.chain)
    && c.index.Keys == KeySet(c.chain)
    && Agrees(c.index, c.chain)
  }

  /** The chain with the node for `key` unlinked, everything else in order:
      the reference definition of "unlink one node". */
  function Drop<V>(s: seq<Entry<V>>, key: string): seq<Entry<V>>
  {
    if s == [] then []
    else (if s[0].key == key then [] else [s[0]]) + Drop(s[1..], key)
  }

  /** The sequence with position `i` cut out. */
  function RemoveAt<V>(s: seq<Entry<V>>, i: nat): seq<Entry<V>>
    requires i < |s|
  {
    s[..i] + s[i + 1..]
  }

  /** The chain read from the tail back to the head. */
  function Reverse<V>(s: seq<Entry<V>>): seq<Entry<V>>
  {
    if s == [] then [] else Reverse(s[1..]) + [s[0]]
  }

  /** Walking one node further back extends the reversed suffix by that
      node. */
  lemma ReverseStep<V>(s: seq<Entry<V>>, i: nat)
    requires i < |s|
    ensures Reverse(s[i..]) == Reverse(s[i + 1..]) + [s[i]]
  {
    assert s[i..][1..] == s[i + 1..];
  }

  /** Reversal keeps every node exactly as often as it occurs. */
  lemma {:induction false} ReverseMultiset<V>(s: seq<Entry<V>>)
    ensures multiset(Reverse(s)) == multiset(s)
  {
    if s != [] {
      ReverseMultiset(s[1..]);
      assert s == [s[0]] + s[1..];
    }
  }

  /** Position of the first node carrying `key`: where the map's node sits
      in the chain. */
  function IndexOf<V>(s: seq<Entry<V>>, key: string): (i: nat)
    requires key in KeySet(s)
    ensures i < |s| && s[i].key == key
    ensures forall j :: 0 <= j < i ==> s[j].key != key
  {
    if s[0].key == key then 0
    else
      assert key in KeySet(s[1..]) by {
        var j :| 0 <= j < |s| && s[j].key == key;
        assert s[1..][j - 1] == s[j];
      }
      1 + IndexOf(s[1..], key)
  }

  // ---------------------------------------------------------------------
  // Facts about chains
  // ---------------------------------------------------------------------

  /** Position `j` of a chain with position `i` cut out. */
  lemma RemoveAtIndex<V>(s: seq<Entry<V>>, i: nat)
    requires i < |s|
    ensures |RemoveAt(s, i)| == |s| - 1
    ensures forall j :: 0 <= j < i ==> RemoveAt(s, i)[j] == s[j]
    ensures forall j :: i <= j < |s| - 1 ==> RemoveAt(s, i)[j] == s[j + 1]
  {
  }

  /** Cutting one node out of a chain with one node per key keeps one node
      per key. */
  lemma RemoveAtDistinct<V>(s: seq<Entry<V>>, i: nat)
    requires DistinctKeys(s) && i < |s|
    ensures DistinctKeys(RemoveAt(s, i))
  {
    var d := RemoveAt(s, i);
    RemoveAtIndex(s, i);
    forall a, b | 0 <= a < b < |d| ensures d[a].key != d[b].key {
      var a' := if a < i then a else a + 1;
      var b' := if b < i then b else b + 1;
      assert d[a] == s[a'] && d[b] == s[b'];
    }
  }

  /** Cutting one node out of a chain with one node per key loses exactly
      that node's key. */
  lemma RemoveAtKeys<V>(s: seq<Entry<V>>, i: nat)
    requires DistinctKeys(s) && i < |s|
    ensures KeySet(RemoveAt(s, i)) == KeySet(s) - {s[i].key}
  {
    var d := RemoveAt(s, i);
    RemoveAtIndex(s, i);
    forall k | k in KeySet(d) ensures k in KeySet(s) - {s[i].key} {
      var j :| 0 <= j < |d| && d[j].key == k;
      var j' := if j < i then j else j + 1;
      assert d[j] == s[j'];
    }
    forall k | k in KeySet(s) - {s[i].key} ensures k in KeySet(d) {
      var j :| 0 <= j < |s| && s[j].key == k;
      var j' := if j < i then j else j - 1;
      assert d[j'] == s[j];
    }
  }

  /** With one node per key, unlinking the node at position `i` by cutting
      the sequence is the same as the reference `Drop`. */
  lemma {:induction false} DropAt<V>(s: seq<Entry<V>>, i: nat)
    requires DistinctKeys(s) && i < |s|
    ensures Drop(s, s[i].key) == RemoveAt(s, i)
  {
    var key := s[i].key;
    var t := s[1..];
    assert DistinctKeys(t) by {
      forall a, b | 0 <= a < b < |t| ensures t[a].key != t[b].key {
        assert t[a] == s[a + 1] && t[b] == s[b + 1];
      }
    }
    if i == 0 {
      DropAbsent(t, key);
      assert RemoveAt(s, 0) == t;
    } else {
      assert t[i - 1] == s[i];
      DropAt(t, i - 1);
      assert s[0].key != key;
      assert RemoveAt(s, i) == [s[0]] + RemoveAt(t, i - 1);
    }
  }

  /** Unlinking a key that no node carries changes nothing. */
  lemma {:induction false} DropAbsent<V>(s: seq<Entry<V>>, key: string)
    requires key !in KeySet(s)
    ensures Drop(s, key) == s
  {
    if s != [] {
      assert s[0].key != key;
      assert key !in KeySet(s[1..]) by {
        forall j | 0 <= j < |s| - 1 ensures s[1..][j].key != key {
          assert s[1..][j] == s[j + 1];
        }
      }
      DropAbsent(s[1..], key);
    }
  }

  /** Linking a node with a fresh key at the tail keeps one node per key. */
  lemma AppendFresh<V>(s: seq<Entry<V>>, e: Entry<V>)
    requires DistinctKeys(s) && e.key !in KeySet(s)
    ensures DistinctKeys(s + [e])
    ensures KeySet(s + [e]) == KeySet(s) + {e.key}
  {
    var t := s + [e];
    forall i, j | 0 <= i < j < |t| ensures t[i].key != t[j].key {
      assert t[i] == s[i];
    }
    forall k | k in KeySet(t) ensures k in KeySet(s) + {e.key} {
      var j :| 0 <= j < |t| && t[j].key == k;
      if j < |s| { assert t[j] == s[j]; }
    }
    forall k | k in KeySet(s) ensures k in KeySet(t) {
      var j :| 0 <= j < |s| && s[j].key == k;
      assert t[j] == s[j];
    }
    assert t[|s|] == e;
  }

  lemma {:induction false} ReverseAt<V>(s: seq<Entry<V>>)
    ensures |Reverse(s)| == |s|
    ensures forall i :: 0 <= i < |s| ==> Reverse(s)[i] == s[|s| - 1 - i]
  {
    if s != [] {
      ReverseAt(s[1..]);
    }
  }

  /** Unlinking the node at position `i` and deleting its key from the map
      keeps chain and map in agreement. */
  lemma UnlinkAgrees<V>(index: map<string, V>, s: seq<Entry<V>>, i: nat)
    requires DistinctKeys(s) && index.Keys == KeySet(s) && Agrees(index, s) && i < |s|
    ensures DistinctKeys(RemoveAt(s, i))
    ensures (index - {s[i].key}).Keys == KeySet(RemoveAt(s, i))
    ensures Agrees(index - {s[i].key}, RemoveAt(s, i))
    ensures |RemoveAt(s, i)| == |s| - 1
  {
    RemoveAtDistinct(s, i);
    RemoveAtKeys(s, i);
    RemoveAtIndex(s, i);
    var d := RemoveAt(s, i);
    var m := index - {s[i].key};
    forall j | 0 <= j < |d| ensures d[j].key in m && m[d[j].key] == d[j].value {
      var j' := if j < i then j else j + 1;
      assert d[j] == s[j'];
    }
  }

  /** Linking a node with a fresh key at the tail and mapping its key keeps
      chain and map in agreement. */
  lemma LinkAgrees<V>(index: map<string, V>, s: seq<Entry<V>>, e: Entry<V>)
    requires DistinctKeys(s) && index.Keys == KeySet(s) && Agrees(index, s) && e.key !in index
    ensures DistinctKeys(s + [e])
    ensures index[e.key := e.value].Keys == KeySet(s + [e])
    ensures Agrees(index[e.key := e.value], s + [e])
  {
    AppendFresh(s, e);
    var t := s + [e];
    var m := index[e.key := e.value];
    forall j | 0 <= j < |t| ensures t[j].key in m && m[t[j].key] == t[j].value {
      if j < |s| {
        assert t[j] == s[j];
      }
    }
  }

  /** Moving the node that is already the tail to the tail changes nothing. */
  lemma NewestStays<V>(s: seq<Entry<V>>, i: nat)
    requires DistinctKeys(s) && i < |s| && s[|s| - 1].key == s[i].key
    ensures RemoveAt(s, i) + [s[i]] == s
  {
    assert i == |s| - 1;
  }

  /** Moving the node at position `i` to the tail keeps a cache valid, and
      the chain left behind is the reference unlinking of its key. */
  lemma MoveToNewest<V>(c: Cache<V>, i: nat)
    requires Valid(c) && i < |c.chain|
    ensures Valid(c.(chain := RemoveAt(c.chain, i) + [c.chain[i]]))
    ensures RemoveAt(c.chain, i) == Drop(c.chain, c.chain[i].key)
  {
    var e := c.chain[i];
    DropAt(c.chain, i);
    UnlinkAgrees(c.index, c.chain, i);
    LinkAgrees(c.index - {e.key}, RemoveAt(c.chain, i), e);
    assert (c.index - {e.key})[e.key := e.value] == c.index;
  }

  // ---------------------------------------------------------------------
  // Operations
  // ---------------------------------------------------------------------

  /** `new LRUCache(limit)`: no nodes, an empty map, size 0. */
  function New<V>(limit: int): (r: Cache<V>)
    ensures r.limit == limit && r.size == 0 && r.chain == []
    ensures forall key :: Find(r, key) == None
    ensures limit >= 1 ==> Valid(r)
  {
    Cache([], map[], 0, limit)
  }

  /** The head-purging step of `shift` on a cache that has a head: the head
      node is unlinked and its key deleted from the map. The size counter is
      left alone, as in the source. */
  function ShiftHead<V>(c: Cache<V>): (r: Cache<V>)
    requires |c.chain| > 0
  {
    c.(chain := c.chain[1..], index := c.index - {c.chain[0].key})
  }

  /** `shift()` called on its own. With no head the source reaches
      `entry.key` on `undefined` and throws. With a single node the head is
      cleared and the key deleted, but the tail keeps pointing at the purged
      node; that outcome is reported as `StaleTail` and not carried further.
      Otherwise the oldest node leaves both the chain and the map while every
      other node keeps its place; the size counter is not lowered, so on a
      valid cache it ends one above the number of linked nodes (only `put`
      calls `shift`, and compensates). */
  function Shift<V>(c: Cache<V>): (r: Shifted<V>)
    ensures r.HeadUndefined? <==> c.chain == []
    ensures r.StaleTail? <==> |c.chain| == 1
    ensures r.StaleTail? ==> r.evicted == c.chain[0]
    ensures r.Shifted? ==> [r.evicted] + r.cache.chain == c.chain
    ensures r.Shifted? ==> r.evicted.key !in r.cache.index && r.cache.size == c.size
    ensures r.Shifted? ==> r.cache.limit == c.limit && r.cache.index == c.index - {c.chain[0].key}
    ensures r.Shifted? && Valid(c) ==>
              && r.cache.index.Keys == KeySet(r.cache.chain)
              && Agrees(r.cache.index, r.cache.chain)
              && r.cache.size == |r.cache.chain| + 1
  {
    if c.chain == [] then HeadUndefined
    else if |c.chain| == 1 then StaleTail(c.chain[0])
    else
      var d := ShiftHead(c);
      assert Valid(c) ==> d.index.Keys == KeySet(d.chain) by {
        if Valid(c) {
          UnlinkAgrees(c.index, c.chain, 0);
          assert RemoveAt(c.chain, 0) == c.chain[1..];
        }
      }
      Shifted(d, c.chain[0])
  }

  /** `put` exactly as written: the new node is always appended at the tail
      and the map entry for `key` overwritten, with no check for a node
      already linked under `key`; at the limit the head is then shifted out. */
  function PutUnguarded<V>(c: Cache<V>, key: string, value: V): (r: Cache<V>)
    requires Shaped(c)
    ensures Shaped(r) && r.limit == c.limit
    ensures r.chain != [] && r.chain[|r.chain| - 1] == Entry(key, value)
    ensures key in r.index <==> !(c.size == c.limit && c.chain[0].key == key)
    ensures key in r.index ==> r.index[key] == value
    ensures c.size < c.limit ==>
              && r.size == c.size + 1
              && r.chain == c.chain + [Entry(key, value)]
              && r.index == c.index[key := value]
    ensures c.size == c.limit ==>
              && r.size == c.size
              && r.chain == c.chain[1..] + [Entry(key, value)]
              && r.index == c.index[key := value] - {c.chain[0].key}
  {
    var grown := c.(chain := c.chain + [Entry(key, value)], index := c.index[key := value]);
    if c.size == c.limit then ShiftHead(grown) else grown.(size := c.size + 1)
  }

  /** `put(key, value)` for a key that is not cached, the only way its one
      caller uses it. The new entry becomes the newest; below the limit the
      size grows by one, at the limit exactly the oldest entry is evicted
      from chain and map and the size stays put. */
  function Put<V>(c: Cache<V>, key: string, value: V): (r: Cache<V>)
    requires Valid(c) && key !in c.index
    ensures Valid(r) && r.limit == c.limit
    ensures c.size < c.limit ==>
              && r.size == c.size + 1
              && r.chain == c.chain + [Entry(key, value)]
              && r.index == c.index[key := value]
    ensures c.size == c.limit ==>
              && r.size == c.size
              && r.chain == Drop(c.chain, c.chain[0].key) + [Entry(key, value)]
              && r.index == (c.index - {c.chain[0].key})[key := value]
  {
    var e := Entry(key, value);
    var r := PutUnguarded(c, key, value);
    if c.size == c.limit then
      var h := c.chain[0].key;
      var chain' := c.chain[1..] + [e];
      var index' := (c.index - {h})[key := value];
      assert r == Cache(chain', index', c.size, c.limit) by {
        assert (c.chain + [e])[1..] == chain';
        assert c.index[key := value] - {h} == index';
      }
      assert Valid(Cache(chain', index', c.size, c.limit)) by {
        UnlinkAgrees(c.index, c.chain, 0);
        assert RemoveAt(c.chain, 0) == c.chain[1..];
        LinkAgrees(c.index - {h}, c.chain[1..], e);
      }
      DropAt(c.chain, 0);
      assert RemoveAt(c.chain, 0) == c.chain[1..];
      r
    else
      assert r == Cache(c.chain + [e], c.index[key := value], c.size + 1, c.limit);
      LinkAgrees(c.index, c.chain, e);
      r
  }

  /** `get(key)`: a miss returns `undefined` and changes nothing; a hit
      returns the cached value and leaves the entry as the newest, every other
      entry keeping its relative order, the map and the size unchanged. */
  function Get<V>(c: Cache<V>, key: string): (r: Lookup<V>)
    requires Valid(c)
    ensures Valid(r.cache)
    ensures r.value.Some? <==> key in c.index
    ensures key in c.index ==> r.value.value == c.index[key]
    ensures key !in c.index ==> r.cache == c
    ensures key in c.index ==> r.cache.chain == Drop(c.chain, key) + [Entry(key, c.index[key])]
    ensures r.cache.index == c.index && r.cache.size == c.size && r.cache.limit == c.limit
  {
    if key !in c.index then Lookup(None, c)
    else
      var i := IndexOf(c.chain, key);
      var last := |c.chain| - 1;
      assert c.chain[i] == Entry(key, c.index[key]);
      MoveToNewest(c, i);
      if c.chain[last].key == key then
        // already the tail: returned without relinking
        NewestStays(c.chain, i);
        Lookup(Some(c.index[key]), c)
      else
        Lookup(Some(c.index[key]), c.(chain := RemoveAt(c.chain, i) + [c.chain[i]]))
  }

  /** `find(key)`: the node the map holds for `key`, without touching the
      recency order. */
  function Find<V>(c: Cache<V>, key: string): (r: Option<Entry<V>>)
    ensures r.Some? <==> key in c.index
    ensures r.Some? ==> r.value.key == key && r.value.value == c.index[key]
    ensures r.Some? && Valid(c) ==> r.value in c.chain
  {
    if key in c.index then
      assert Valid(c) ==> Entry(key, c.index[key]) in c.chain by {
        if Valid(c) {
          var i := IndexOf(c.chain, key);
          assert c.chain[i] in c.chain;
        }
      }
      Some(Entry(key, c.index[key]))
    else None
  }

  /** `remove(key)`: a miss returns `undefined` and changes nothing; a hit
      returns the value, deletes the key from the map, unlinks exactly that
      node (fixing head and tail) and lowers the size by one. */
  function Remove<V>(c: Cache<V>, key: string): (r: Lookup<V>)
    requires Valid(c)
    ensures key !in c.index ==> r == Lookup(None, c)
    ensures key in c.index ==>
              && r.value == Some(c.index[key])
              && r.cache.chain == Drop(c.chain, key)
              && r.cache.index == c.index - {key}
              && r.cache.size == c.size - 1
              && r.cache.limit == c.limit
    ensures Valid(r.cache)
  {
    if key !in c.index then Lookup(None, c)
    else
      var i := IndexOf(c.chain, key);
      DropAt(c.chain, i);
      UnlinkAgrees(c.index, c.chain, i);
      Lookup(Some(c.index[key]), Cache(Unlink(c.chain, i), c.index - {key}, c.size - 1, c.limit))
  }

  /** The relinking of `remove` for the node at position `i`, by the four
      cases the source distinguishes; in every case the result is the chain
      with exactly that node cut out, so head and tail end up right. */
  function Unlink<V>(s: seq<Entry<V>>, i: nat): (r: seq<Entry<V>>)
    requires i < |s|
    ensures r == RemoveAt(s, i)
  {
    var last := |s| - 1;
    if 0 < i && i < last then s[..i] + s[i + 1..]  // both neighbours: relink them to each other
    else if i < last then s[1..]                   // the head: its newer becomes the head
    else if 0 < i then s[..last]                   // the tail: its older becomes the tail
    else []                                        // the only node: no head, no tail
  }

  /** `removeAll()`: no head, no tail, an empty map and size 0, whatever the
      state before; the limit is kept. */
  function RemoveAll<V>(c: Cache<V>): (r: Cache<V>)
    ensures r.size == 0 && r.chain == [] && r.limit == c.limit
    ensures forall key :: Find(r, key) == None
    ensures c.limit >= 1 ==> Valid(r)
  {
    Cache([], map[], 0, c.limit)
  }

  /** `forEach(fun, context, desc)`: the entries `fun` is called with, in
      call order. A `context` of literal `true` counts as `desc`. The walk
      starts at the head and follows `newer` links, or starts at the tail and
      follows `older` links; the cache itself is not touched. */
  method ForEach<V>(c: Cache<V>, contextIsTrue: bool, desc: bool) returns (visited: seq<Entry<V>>)
    ensures (contextIsTrue || desc) ==> visited == Reverse(c.chain)
    ensures (contextIsTrue || desc) ==>
              |visited| == |c.chain| && forall i :: 0 <= i < |c.chain| ==> visited[i] == c.chain[|c.chain| - 1 - i]
    ensures !(contextIsTrue || desc) ==> visited == c.chain
    ensures multiset(visited) == multiset(c.chain)
  {
    visited := [];
    if contextIsTrue || desc {
      var i := |c.chain|;
      while i > 0
        invariant 0 <= i <= |c.chain|
        invariant visited == Reverse(c.chain[i..])
      {
        ReverseStep(c.chain, i - 1);
        visited := visited + [c.chain[i - 1]];
        i := i - 1;
      }
      assert c.chain[0..] == c.chain;
      ReverseMultiset(c.chain);
      ReverseAt(c.chain);
    } else {
      var i := 0;
      while i < |c.chain|
        invariant 0 <= i <= |c.chain|
        invariant visited == c.chain[..i]
      {
        assert c.chain[..i + 1] == c.chain[..i] + [c.chain[i]];
        visited := visited + [c.chain[i]];
        i := i + 1;
      }
      assert c.chain[..|c.chain|] == c.chain;
    }
  }
}

=== FILE: lru_laws.dfy ===
/** Laws of the cache of basic/ts/util/lru.ts that relate several calls:
    what a `get` sees after a `put`, which entry a full cache evicts, the
    `put`/`remove` round trip, and what the unguarded `put` does to a key
    that is put twice. */
module LruLaws {
  import opened Wrappers
  import opened Lru

  /** Reading the newest entry hands back its value and relinks nothing. */
  lemma GetNewestKeepsOrder<V>(c: Cache<V>)
    requires Valid(c) && c.chain != []
    ensures var e := c.chain[|c.chain| - 1];
            Get(c, e.key) == Lookup(Some(e.value), c)
  {
    var last := |c.chain| - 1;
    var e := c.chain[last];
    assert e in c.chain;
    DropAt(c.chain, last);
    assert RemoveAt(c.chain, last) + [e] == c.chain;
  }

  /** After putting a fresh key, reading it returns the value just put, and
      the key is the newest entry. */
  lemma PutThenGet<V>(c: Cache<V>, key: string, value: V)
    requires Valid(c) && key !in c.index
    ensures var d := Put(c, key, value);
            && d.chain[|d.chain| - 1] == Entry(key, value)
            && Get(d, key) == Lookup(Some(value), d)
  {
    var d := Put(c, key, value);
    GetNewestKeepsOrder(d);
  }

  /** A second `get` of the same key is a no-op: `get` is idempotent. */
  lemma GetTwice<V>(c: Cache<V>, key: string)
    requires Valid(c)
    ensures Get(Get(c, key).cache, key) == Get(c, key)
  {
    var d := Get(c, key).cache;
    if key in c.index {
      assert d.chain[|d.chain| - 1].key == key;
      GetNewestKeepsOrder(d);
    }
  }

  /** Below the limit, removing a key just put restores the cache exactly
      and hands back the value. */
  lemma PutThenRemove<V>(c: Cache<V>, key: string, value: V)
    requires Valid(c) && key !in c.index && c.size < c.limit
    ensures Remove(Put(c, key, value), key) == Lookup(Some(value), c)
  {
    var d := Put(c, key, value);
    var last := |c.chain|;
    assert d.chain[last] == Entry(key, value);
    DropAt(d.chain, last);
    assert RemoveAt(d.chain, last) == c.chain;
    assert d.index - {key} == c.index;
  }

  /** After `remove(key)` the key is gone for good: a `get` misses. */
  lemma RemoveThenGet<V>(c: Cache<V>, key: string)
    requires Valid(c)
    ensures var d := Remove(c, key).cache;
            Get(d, key).value == None && (key in c.index ==> d.size == c.size - 1)
  {
  }

  /** Limit 2 with `a: 1` older than `b: 2`. */
  function CacheAB(): Cache<int>
  {
    Cache([Entry("a", 1), Entry("b", 2)], map["a" := 1, "b" := 2], 2, 2)
  }

  /** Limit 2 with `b: 2` older than `a: 1`. */
  function CacheBA(): Cache<int>
  {
    Cache([Entry("b", 2), Entry("a", 1)], map["a" := 1, "b" := 2], 2, 2)
  }

  /** The state after `put a 1` on an empty cache of limit 2. */
  lemma OnePut()
    ensures Put(New<int>(2), "a", 1) == Cache([Entry("a", 1)], map["a" := 1], 1, 2)
  {
    var c0 := New<int>(2);
    assert c0 == Cache([], map[], 0, 2);
    var c1 := Put(c0, "a", 1);
    assert c1.chain == [] + [Entry("a", 1)] && c1.index == map[]["a" := 1];
  }

  /** The state after `put a 1; put b 2` on a cache of limit 2. */
  lemma TwoPuts()
    ensures Put(Put(New<int>(2), "a", 1), "b", 2) == CacheAB()
  {
    OnePut();
    var c1 := Cache([Entry("a", 1)], map["a" := 1], 1, 2);
    assert "b"[0] != "a"[0];
    var c2 := Put(c1, "b", 2);
    assert c2.chain == [Entry("a", 1)] + [Entry("b", 2)] && c2.index == map["a" := 1]["b" := 2];
  }

  /** Unlinking `a` from the chain a, b leaves `b` alone. */
  lemma CacheABDrop()
    ensures Drop(CacheAB().chain, "a") == [Entry("b", 2)]
  {
    var s := CacheAB().chain;
    assert s[1..] == [Entry("b", 2)];
    assert "b"[0] != "a"[0];
    assert Drop(s[1..], "a") == [Entry("b", 2)];
  }

  /** The cache a, b is valid and full, does not hold `c`, and unlinking `a`
      from it leaves `b` alone. */
  lemma CacheABFacts()
    ensures Valid(CacheAB()) && CacheAB().size == CacheAB().limit
    ensures "c" !in CacheAB().index && CacheAB().index["a"] == 1
    ensures Drop(CacheAB().chain, "a") == [Entry("b", 2)]
  {
    TwoPuts();
    CacheABDrop();
    assert "c"[0] != "a"[0] && "c"[0] != "b"[0];
  }

  /** Putting `c` into the full cache a, b evicts `a`. */
  lemma ThirdPutEvictsFirst()
    ensures Valid(CacheAB())
    ensures Put(CacheAB(), "c", 3) == Cache([Entry("b", 2), Entry("c", 3)], map["b" := 2, "c" := 3], 2, 2)
  {
    CacheABFacts();
    var d := Put(CacheAB(), "c", 3);
    assert d.chain == [Entry("b", 2)] + [Entry("c", 3)];
    assert d.index == (map["a" := 1, "b" := 2] - {"a"})["c" := 3];
    assert map["a" := 1, "b" := 2] - {"a"} == map["b" := 2];
  }

  /** Limit 2: `put a; put b; put c` loses `a` and keeps `b` and `c`. */
  lemma EvictsOldest()
    ensures var c := Put(Put(Put(New<int>(2), "a", 1), "b", 2), "c", 3);
            && Get(c, "a").value == None
            && Get(c, "b").value == Some(2)
            && Get(c, "c").value == Some(3)
            && c.chain == [Entry("b", 2), Entry("c", 3)]
  {
    TwoPuts();
    ThirdPutEvictsFirst();
  }

  /** Reading `a` after `put a 1; put b 2` makes `a` the newer entry. */
  lemma GetMovesToNewest()
    ensures Valid(CacheAB()) && Get(CacheAB(), "a") == Lookup(Some(1), CacheBA())
  {
    CacheABFacts();
    var g := Get(CacheAB(), "a");
    assert g.value == Some(1);
    assert g.cache.chain == [Entry("b", 2)] + [Entry("a", 1)];
    assert g.cache == CacheBA();
  }

  /** Putting `c` into the full cache b, a evicts `b`. */
  lemma PutEvictsRefreshedOrder()
    ensures Valid(CacheBA())
    ensures Put(CacheBA(), "c", 3) == Cache([Entry("a", 1), Entry("c", 3)], map["a" := 1, "c" := 3], 2, 2)
  {
    GetMovesToNewest();
    var g := CacheBA();
    assert g.chain[1..] == [Entry("a", 1)];
    assert Drop(g.chain[1..], "b") == [Entry("a", 1)];
    assert Drop(g.chain, "b") == [Entry("a", 1)];
    assert map["a" := 1, "b" := 2] - {"b"} == map["a" := 1];
  }

  /** Limit 2: `put a; put b; get a; put c` evicts `b`, because the `get`
      made `a` the newer of the two. */
  lemma GetRefreshesRecency()
    ensures var c2 := Put(Put(New<int>(2), "a", 1), "b", 2);
            var c3 := Put(Get(c2, "a").cache, "c", 3);
            && Get(c3, "b").value == None
            && Get(c3, "a").value == Some(1)
            && Get(c3, "c").value == Some(3)
  {
    TwoPuts();
    GetMovesToNewest();
    PutEvictsRefreshedOrder();
    var c3 := Put(CacheBA(), "c", 3);
    assert Valid(c3);
    assert c3.index == map["a" := 1, "c" := 3];
    assert "b" !in c3.index && c3.index["a"] == 1 && c3.index["c"] == 3;
  }

  /** The unguarded `put` as written, on any full cache whose oldest node
      carries `key`: the new node for `key` is linked as the newest, yet the
      eviction of the old node deletes `key` from the map, so a `get` right
      after the `put` misses. */
  lemma RePutOfOldestLosesKey<V>(c: Cache<V>, key: string, value: V)
    requires Shaped(c) && c.size == c.limit && c.chain[0].key == key
    ensures var d := PutUnguarded(c, key, value);
            && Entry(key, value) in d.chain
            && key !in d.index
  {
    var d := PutUnguarded(c, key, value);
    assert d.chain[|d.chain| - 1] == Entry(key, value);
  }

  /** Limit 2: `put a 1; put a 2; put b 3` with the unguarded `put` leaves
      the node `a: 2` linked but unreachable through the map, and the size
      counter counts it. */
  lemma OrphanEvictionDropsLiveMapping()
    ensures var c := PutUnguarded(PutUnguarded(PutUnguarded(New<int>(2), "a", 1), "a", 2), "b", 3);
            && c.chain == [Entry("a", 2), Entry("b", 3)]
            && c.index == map["b" := 3]
            && c.size == 2
            && Find(c, "a") == None
  {
    var c1 := PutUnguarded(New<int>(2), "a", 1);
    var c2 := PutUnguarded(c1, "a", 2);
    assert c2.chain == [Entry("a", 1), Entry("a", 2)];
    var c3 := PutUnguarded(c2, "b", 3);
    assert c3.index == map["a" := 2, "b" := 3] - {"a"};
  }
}

=== FILE: port_holding.dfy ===
/** The startup sequence of the abstract `PortHoldingServer` of
    basic/ts/types/server.ts: `init` awaits `prepare`, then `listen`, folding
    both into one value with JavaScript's short-circuit `&&`. The two steps
    are extension points of subclasses, so here they are the values they
    resolve to. */
module PortHolding {

  /** The extension points `init` invokes. */
  datatype Step = Prepare | Listen

  /** What `init` resolves to: `false` when `prepare` resolved to false, and
      otherwise whatever value `listen` resolved to (`true && x` is `x`). */
  datatype InitValue<L> = PrepareFalse | Listened(value: L)

  /** The steps `init` invoked, in order, and the value it resolved to. */
  datatype InitRun<L> = InitRun(calls: seq<Step>, result: InitValue<L>)

  /** JavaScript truthiness of `init`'s value, given the truthiness of
      `listen`'s values. */
  function Truthy<L>(v: InitValue<L>, truthy: L -> bool): bool
  {
    match v
    case PrepareFalse => false
    case Listened(x) => truthy(x)
  }

  /** `init(opts)` where `prepare` resolves to `prepared` and `listen` would
      resolve to `listened`. `prepare` is invoked first and exactly once;
      `listen` is invoked, once and after it, exactly when `prepare` yielded
      true; a false `prepare` makes `init` false without listening. */
  function Init<L>(prepared: bool, listened: L): (r: InitRun<L>)
    ensures |r.calls| > 0 && r.calls[0] == Prepare
    ensures multiset(r.calls)[Prepare] == 1 && multiset(r.calls)[Listen] <= 1
    ensures Listen in r.calls <==> prepared
    ensures !prepared ==> r.result == PrepareFalse
    ensures prepared ==> r.result == Listened(listened)
  {
    // listen runs only when prepare yielded true; its value is then the result
    if prepared then InitRun([Prepare, Listen], Listened(listened))
    else InitRun([Prepare], PrepareFalse)
  }

  /** `init` is truthy exactly when `prepare` yielded true and `listen`'s
      value is truthy. */
  lemma InitTruthy<L>(prepared: bool, listened: L, truthy: L -> bool)
    ensures Truthy(Init(prepared, listened).result, truthy) <==> prepared && truthy(listened)
  {
  }
}

=== FILE: wrappers.dfy ===
/** The optional-value datatype shared by the other modules: `None` stands for
    JavaScript's `undefined`/`null` returns. */
module Wrappers {

  datatype Option<+T> = None | Some(value: T)

}

=== FILE: ws_server.dfy ===
/** The WebSocket server `WSServer` of basic/ts/lib/server/ws.server.ts: how
    `listen` picks the server it binds to, how each connection greets the
    peer and routes its messages to the registered protocols, how `clear`
    lets go of both servers, and what `init` of the base class makes of it.

    The transport and `JSON.parse` are not modelled; a payload is the result
    of parsing it, the `hello`/`error` functions and the protocol handlers
    are uninterpreted functions, the logger is a sink except that its
    `warning` method may be missing, and what the code sends or logs is a
    trace of events. */
module WsServer {
  import opened Wrappers
  import PortHolding

  // ---------------------------------------------------------------------
  // Message routing
  // ---------------------------------------------------------------------

  /** One accepted socket together with its upgrade request. */
  datatype Conn = Conn(remoteAddress: string, id: nat)

  /** A parsed message. `msgType` is `None` when the object has no string
      `type` field; the remaining fields are passed to handlers untouched. */
  datatype Datum = Datum(msgType: Option<string>, fields: map<string, string>)

  /** The outcome of parsing a raw payload: `Malformed` when `JSON.parse`
      throws or reading `type` off the result throws (a `null` payload). */
  datatype Parsed = Malformed | WellFormed(datum: Datum)

  /** What a protocol handler does when called: return a reply, or throw. */
  datatype HandlerOutcome = Returns(reply: string) | Throws

  /** One entry of the protocol list: the `type` it answers and its handler.
      Its `sendError` is referred to by the entry's position. */
  datatype Protocol = Protocol(typeName: string, handler: (Conn, Datum) -> HandlerOutcome)

  /** What happens on the branch for a message no protocol matches, both of
      whose calls sit inside the listener's `try`: whether the injected
      logger's `warning` method throws (a winston logger with the default
      npm levels has no such method), and what `error(ws, req)` does. */
  datatype Fallback = Fallback(warningThrows: bool, error: Conn -> HandlerOutcome)

  /** The completion callback handed to `ws.send`. */
  datatype Completion = NoCallback | SendErrorOf(protocol: nat)

  /** What the connection handler does, in order. */
  datatype Event =
    | LogInfo(remoteAddress: string)          // "Connection established"
    | LogWarning(unknownType: Option<string>) // "Unknown protocol"
    | LogError                                // anything thrown inside the message `try`
    | ListenMessage                           // ws.on('message', ...)
    | ListenSocketError                       // ws.on('error', ...)
    | Send(payload: string, completion: Completion)

  /** The send events of a trace, in order. */
  function Sends(t: seq<Event>): (r: seq<Event>)
    ensures |r| <= |t|
    ensures forall e :: e in r ==> e.Send?
  {
    if t == [] then []
    else (if t[0].Send? then [t[0]] else []) + Sends(t[1..])
  }

  /** `i` is the first position of `ps` whose `type` equals `t`: the entry
      lodash's `_.find(protocols, { type })` returns. */
  ghost predicate FirstMatch(ps: seq<Protocol>, t: Option<string>, i: nat)
  {
    i < |ps| && t == Some(ps[i].typeName)
    && forall j :: 0 <= j < i ==> t != Some(ps[j].typeName)
  }

  /** `_.find(protocols, { type: datum.type })`: a scan in array order for
      the first matching entry. Nothing makes the types unique, so later
      entries with the same type are never reached. */
  function FindProtocol(ps: seq<Protocol>, t: Option<string>): (r: Option<nat>)
    ensures r.Some? ==> FirstMatch(ps, t, r.value)
    ensures r.None? <==> forall j :: 0 <= j < |ps| ==> t != Some(ps[j].typeName)
  {
    if ps == [] then None
    else if t == Some(ps[0].typeName) then Some(0)
    else
      match FindProtocol(ps[1..], t)
      case None => None
      case Some(i) => Some(i + 1)
  }

  /** The 'message' listener for one payload. A payload that fails to parse
      is logged as an error and answered with nothing. A message whose type
      the first matching protocol answers gets that handler's reply, sent
      with the protocol's `sendError` as completion callback; a handler that
      throws is caught by the same `try`, logged, and nothing is sent. A
      message no protocol matches is logged as a warning and answered with
      `error(ws, req)`, unless the warning call or `error` throws, which the
      `try` again turns into an error log and no send. Every message causes
      at most one send. */
  function Dispatch(ps: seq<Protocol>, conn: Conn, fallback: Fallback, payload: Parsed): (r: seq<Event>)
    ensures |Sends(r)| <= 1
    ensures payload.Malformed? ==> r == [LogError]
    ensures payload.WellFormed? && (forall j :: 0 <= j < |ps| ==> payload.datum.msgType != Some(ps[j].typeName)) ==>
              && (fallback.warningThrows ==> r == [LogError])
              && (!fallback.warningThrows && fallback.error(conn).Returns? ==>
                    r == [LogWarning(payload.datum.msgType), Send(fallback.error(conn).reply, NoCallback)])
              && (!fallback.warningThrows && fallback.error(conn).Throws? ==>
                    r == [LogWarning(payload.datum.msgType), LogError])
    ensures forall i: nat :: payload.WellFormed? && FirstMatch(ps, payload.datum.msgType, i) ==>
              r == match ps[i].handler(conn, payload.datum)
                   case Returns(reply) => [Send(reply, SendErrorOf(i))]
                   case Throws => [LogError]
  {
    match payload
    case Malformed => [LogError]
    case WellFormed(datum) =>
      match FindProtocol(ps, datum.msgType)
      case Some(i) =>
        assert forall k: nat :: FirstMatch(ps, datum.msgType, k) ==> k == i;
        (match ps[i].handler(conn, datum)
         case Returns(reply) => [Send(reply, SendErrorOf(i))]
         case Throws => [LogError])
      case None =>
        if fallback.warningThrows then [LogError]
        else
          (match fallback.error(conn)
           case Returns(reply) => [LogWarning(datum.msgType), Send(reply, NoCallback)]
           case Throws => [LogWarning(datum.msgType), LogError])
  }

  /** Of two protocols with the same `type`, only the earlier one ever
      answers: the later one's handler reply is never sent. */
  lemma ShadowedProtocolNeverAnswers(ps: seq<Protocol>, conn: Conn, fallback: Fallback, payload: Parsed,
                                     i: nat, k: nat)
    requires i < k < |ps| && ps[i].typeName == ps[k].typeName
    ensures forall e :: e in Dispatch(ps, conn, fallback, payload) && e.Send? ==> e.completion != SendErrorOf(k)
  {
    if payload.WellFormed? {
      var t := payload.datum.msgType;
      if t == Some(ps[i].typeName) {
        var f := FindProtocol(ps, t);
        assert f.Some? && f.value <= i;
      }
    }
  }

  /** With `ping` registered first, a `ping` message is handed to its
      handler once and the reply sent once; with nothing registered for
      `bogus` and a logger that has a `warning` level, a `bogus` message is
      answered once with `error(ws, req)`. */
  lemma PingAndBogus(ping: Protocol, others: seq<Protocol>, conn: Conn, fallback: Fallback, reply: string,
                      errorReply: string)
    requires ping.typeName == "ping" && ping.handler(conn, Datum(Some("ping"), map[])) == Returns(reply)
    requires forall j :: 0 <= j < |others| ==> others[j].typeName != "bogus"
    requires !fallback.warningThrows && fallback.error(conn) == Returns(errorReply)
    ensures Dispatch([ping] + others, conn, fallback, WellFormed(Datum(Some("ping"), map[])))
         == [Send(reply, SendErrorOf(0))]
    ensures Dispatch(others, conn, fallback, WellFormed(Datum(Some("bogus"), map[])))
         == [LogWarning(Some("bogus")), Send(errorReply, NoCallback)]
  {
    assert FirstMatch([ping] + others, Some("ping"), 0);
  }

  /** With a logger that has no `warning` level, the call on the unknown-type
      branch throws inside the `try`: a message no protocol answers is logged
      as an error and never answered, whatever `error(ws, req)` would say. */
  lemma UnknownTypeUnansweredWithoutWarningLevel(ps: seq<Protocol>, conn: Conn, fallback: Fallback, datum: Datum)
    requires fallback.warningThrows
    requires forall j :: 0 <= j < |ps| ==> datum.msgType != Some(ps[j].typeName)
    ensures Dispatch(ps, conn, fallback, WellFormed(datum)) == [LogError]
    ensures Sends(Dispatch(ps, conn, fallback, WellFormed(datum))) == []
  {
    assert Sends([LogError]) == Sends([LogError][1..]);
  }

  lemma {:induction false} SendsConcat(a: seq<Event>, b: seq<Event>)
    ensures Sends(a + b) == Sends(a) + Sends(b)
  {
    if a == [] {
      assert a + b == b;
    } else {
      assert (a + b)[1..] == a[1..] + b;
      SendsConcat(a[1..], b);
    }
  }

  /** The events of a run of messages, in arrival order. */
  function Replay(ps: seq<Protocol>, conn: Conn, fallback: Fallback, inbox: seq<Parsed>): seq<Event>
  {
    if inbox == [] then []
    else Replay(ps, conn, fallback, inbox[..|inbox| - 1]) + Dispatch(ps, conn, fallback, inbox[|inbox| - 1])
  }

  /** The steps of the connection handler before it calls `hello`: the
      "Connection established" log and the two listeners. */
  function Setup(conn: Conn): seq<Event>
  {
    [LogInfo(conn.remoteAddress), ListenMessage, ListenSocketError]
  }

  /** The greeting part of the connection handler, before any message.
      `ws.send(hello(ws, req))` is outside any `try`: when `hello` throws, the
      exception leaves the handler with both listeners already attached and
      nothing is sent. */
  function Greeting(conn: Conn, hello: Conn -> HandlerOutcome): seq<Event>
  {
    Setup(conn) + match hello(conn)
                  case Returns(payload) => [Send(payload, NoCallback)]
                  case Throws => []
  }

  /** One connection from accept on: the connection handler logs it, attaches
      the 'message' and 'error' listeners and then sends `hello(ws, req)`;
      every inbound payload is then dispatched in arrival order, also when
      `hello` threw. The hello is the handler's only send, it comes after
      both listeners, and each message adds at most one send. */
  method ServeConnection(ps: seq<Protocol>, conn: Conn, hello: Conn -> HandlerOutcome, fallback: Fallback,
                         inbox: seq<Parsed>)
    returns (trace: seq<Event>)
    ensures |trace| >= 3 && trace[..3] == Setup(conn)
    ensures hello(conn).Returns? ==>
              && |trace| >= 4
              && trace[3] == Send(hello(conn).reply, NoCallback)
              && trace[4..] == Replay(ps, conn, fallback, inbox)
    ensures hello(conn).Throws? ==> trace[3..] == Replay(ps, conn, fallback, inbox)
    ensures |Sends(trace)| <= (if hello(conn).Returns? then 1 else 0) + |inbox|
  {
    var greeting := Greeting(conn, hello);
    var rest: seq<Event> := [];
    var i := 0;
    while i < |inbox|
      invariant 0 <= i <= |inbox|
      invariant rest == Replay(ps, conn, fallback, inbox[..i])
    {
      ReplayStep(ps, conn, fallback, inbox, i);
      rest := rest + Dispatch(ps, conn, fallback, inbox[i]);
      i := i + 1;
    }
    assert inbox[..|inbox|] == inbox;
    trace := greeting + rest;
    ConnectionTrace(ps, conn, hello, fallback, inbox);
  }

  /** The greeting followed by the replayed messages: the hello, if `hello`
      returned, is the only send before the first message, and each message
      adds at most one. */
  lemma ConnectionTrace(ps: seq<Protocol>, conn: Conn, hello: Conn -> HandlerOutcome, fallback: Fallback,
                        inbox: seq<Parsed>)
    ensures var trace := Greeting(conn, hello) + Replay(ps, conn, fallback, inbox);
            && |trace| >= 3 && trace[..3] == Setup(conn)
            && (hello(conn).Returns? ==>
                  && |trace| >= 4
                  && trace[3] == Send(hello(conn).reply, NoCallback)
                  && trace[4..] == Replay(ps, conn, fallback, inbox))
            && (hello(conn).Throws? ==> trace[3..] == Replay(ps, conn, fallback, inbox))
            && |Sends(trace)| <= (if hello(conn).Returns? then 1 else 0) + |inbox|
  {
    var greeting := Greeting(conn, hello);
    var rest := Replay(ps, conn, fallback, inbox);
    GreetingSendsHello(conn, hello);
    ReplaySends(ps, conn, fallback, inbox);
    SendsConcat(greeting, rest);
    assert (greeting + rest)[..3] == Setup(conn);
    if hello(conn).Returns? {
      assert |greeting| == 4;
      assert (greeting + rest)[4..] == rest;
    } else {
      assert greeting == Setup(conn);
      assert (greeting + rest)[3..] == rest;
    }
  }

  /** Dispatching one more message extends the replayed events by that
      message's events. */
  lemma ReplayStep(ps: seq<Protocol>, conn: Conn, fallback: Fallback, inbox: seq<Parsed>, i: nat)
    requires i < |inbox|
    ensures Replay(ps, conn, fallback, inbox[..i + 1])
         == Replay(ps, conn, fallback, inbox[..i]) + Dispatch(ps, conn, fallback, inbox[i])
  {
    assert inbox[..i + 1][..i] == inbox[..i];
  }

  /** A run of messages sends at most once per message. */
  lemma {:induction false} ReplaySends(ps: seq<Protocol>, conn: Conn, fallback: Fallback, inbox: seq<Parsed>)
    ensures |Sends(Replay(ps, conn, fallback, inbox))| <= |inbox|
  {
    if inbox != [] {
      var front := inbox[..|inbox| - 1];
      ReplaySends(ps, conn, fallback, front);
      SendsConcat(Replay(ps, conn, fallback, front), Dispatch(ps, conn, fallback, inbox[|inbox| - 1]));
    }
  }

  /** The greeting sends the hello when `hello` returns, and nothing when it
      throws. */
  lemma GreetingSendsHello(conn: Conn, hello: Conn -> HandlerOutcome)
    ensures hello(conn).Returns? ==> Sends(Greeting(conn, hello)) == [Send(hello(conn).reply, NoCallback)]
    ensures hello(conn).Throws? ==> Sends(Greeting(conn, hello)) == []
  {
    var s := Setup(conn);
    assert s[2..][1..] == [] && s[1..][1..] == s[2..];
    assert Sends(s[2..]) == [];
    assert Sends(s[1..]) == [];
    assert Sends(s) == [];
    var tail: seq<Event> := match hello(conn)
                            case Returns(payload) => [Send(payload, NoCallback)]
                            case Throws => [];
    SendsConcat(s, tail);
    if hello(conn).Returns? {
      assert Sends(tail) == [tail[0]] + Sends(tail[1..]);
    }
  }

  // ---------------------------------------------------------------------
  // Server bookkeeping: listen, clear, init
  // ---------------------------------------------------------------------

  /** An HTTP(S) server object, by identity. */
  datatype HttpServer = HttpServer(id: nat)

  /** An auxiliary service handed to the constructor. */
  datatype ServiceRef = ServiceRef(id: nat)

  /** How a `ws.Server` was created: on its own port, or on a given server. */
  datatype Binding = OwnPort(port: int) | OnServer(server: HttpServer)

  /** A `ws.Server` instance and whether its 'connection' and 'error'
      listeners were registered. */
  datatype Wss = Wss(binding: Binding, registered: bool)

  /** The fields of a `WSServer`: `port` and `services` from the base class,
      the `server` it exposes and the `wss` it owns (`None` for `null`). */
  datatype ServerState = ServerState(port: int, services: seq<ServiceRef>, server: Option<HttpServer>, wss: Option<Wss>)

  /** What `listen` does: the fields afterwards, the server it resolves to,
      and whether it logged a failed registration. */
  datatype ListenRun = ListenRun(state: ServerState, result: Option<HttpServer>, loggedFailure: bool)

  /** `listen(opts)`. With no `opts.server` a `ws.Server` is created on the
      instance's own port and the HTTP server the library made for it
      (`ownServer`, `null` if it exposes none) becomes `server`; with
      `opts.server` the `ws.Server` is attached to it and it becomes `server`.
      Registering the connection handlers may throw (`registerThrows`): that
      is logged, not propagated. Either way `listen` resolves to `server`. */
  function Listen(s: ServerState, optsServer: Option<HttpServer>, ownServer: Option<HttpServer>,
                  registerThrows: bool): (r: ListenRun)
    ensures r.result == r.state.server
    ensures optsServer.None? ==> r.result == ownServer && r.state.wss.Some? && r.state.wss.value.binding == OwnPort(s.port)
    ensures optsServer.Some? ==> r.result == optsServer && r.state.wss.Some? && r.state.wss.value.binding == OnServer(optsServer.value)
    ensures r.state.wss.Some? && (r.state.wss.value.registered <==> !registerThrows)
    ensures r.loggedFailure <==> registerThrows
    ensures r.state.port == s.port && r.state.services == s.services
  {
    var wss := if optsServer.None? then Wss(OwnPort(s.port), false) else Wss(OnServer(optsServer.value), false);
    var server := if optsServer.None? then ownServer else optsServer;
    // `this.wss` was just constructed, so the null check always passes
    var wss' := if registerThrows then wss else wss.(registered := true);
    ListenRun(s.(server := server, wss := Some(wss')), server, registerThrows)
  }

  /** What `clear` does: the fields afterwards, the `ws.Server` it closed if
      any, and the value it resolves to. */
  datatype ClearRun = ClearRun(state: ServerState, closed: Option<Wss>, result: bool)

  /** `clear()`: drops `server`, closes and drops `wss` when there is one,
      and always resolves to true. */
  function Clear(s: ServerState): (r: ClearRun)
    ensures r.result
    ensures r.state.server.None? && r.state.wss.None?
    ensures r.closed == s.wss
    ensures r.state.port == s.port && r.state.services == s.services
  {
    var s1 := if s.server.Some? then s.(server := None) else s;
    if s1.wss.Some? then ClearRun(s1.(wss := None), s1.wss, true)
    else ClearRun(s1, None, true)
  }

  /** A second `clear` closes nothing more and changes nothing. */
  lemma ClearTwice(s: ServerState)
    ensures var once := Clear(s);
            Clear(once.state) == ClearRun(once.state, None, true)
  {
  }

  /** `clear` after `listen` closes exactly the `ws.Server` that `listen`
      created and leaves no server behind, the base fields untouched. */
  lemma ListenThenClear(s: ServerState, optsServer: Option<HttpServer>, ownServer: Option<HttpServer>,
                        registerThrows: bool)
    ensures var l := Listen(s, optsServer, ownServer, registerThrows);
            var c := Clear(l.state);
            && c.closed == l.state.wss && c.closed.Some?
            && c.state == ServerState(s.port, s.services, None, None)
  {
  }

  /** The fields of a `WSServer` after `init`, and what `init` did. */
  datatype WsInitRun = WsInitRun(state: ServerState, init: PortHolding.InitRun<Option<HttpServer>>)

  /** `init` of a `WSServer`: its `prepare` always resolves true, so `listen`
      runs, the fields end as `listen` left them, and `init` resolves to the
      server `listen` exposed (`true && this.server`). */
  function WsInit(s: ServerState, optsServer: Option<HttpServer>, ownServer: Option<HttpServer>,
                  registerThrows: bool): (r: WsInitRun)
    ensures r.init.calls == [PortHolding.Prepare, PortHolding.Listen]
    ensures r.state == Listen(s, optsServer, ownServer, registerThrows).state
    ensures r.init.result == PortHolding.Listened(r.state.server)
    ensures r.state.server == (if optsServer.Some? then optsServer else ownServer)
    ensures r.state.wss.Some? && r.state.wss.value.binding ==
              (if optsServer.Some? then OnServer(optsServer.value) else OwnPort(s.port))
    ensures PortHolding.Truthy(r.init.result, (x: Option<HttpServer>) => x.Some?) <==> r.state.server.Some?
    ensures r.state.server.Some? <==> optsServer.Some? || ownServer.Some?
    ensures r.state.port == s.port && r.state.services == s.services
  {
    var prepared := true;
    var run := Listen(s, optsServer, ownServer, registerThrows);
    var init := PortHolding.Init(prepared, run.result);
    var state := if PortHolding.Listen in init.calls then run.state else s;
    WsInitRun(state, init)
  }
}
